=== FILE: README.md ===
# WebGL Game of Life — the simulation state machine in Dafny

This project models the `GOL` simulation object and its `Controller` from
`js/gol.js` (skeeto/webgl-game-of-life), with the GPU abstracted away.

- The two state textures are byte grids. Each holds `statesize.x * statesize.y`
  RGBA texels, stored row-major from texel (0, 0).
- `frontIsA` says which of the two grids `textures.front` names.
- `running` stands for `timer != null`.
- `Counter(fps, lasttick)` is the once-per-second frame counter.

Every operation is a pure function from state to state:

- `fill`, `fillRandom`, `fillEmpty`, `set` and `get` address the front texture.
- `step` renders the next generation of the front texture into the back one,
  then swaps the two names. No texel is copied.
- A live cell is the texel `[255, 255, 255, 255]`; a dead one is `[0, 0, 0, 255]`.

Modules:

- `Pixels` (pixels.dfy): bytes, RGBA texels, and the cell encoding.
- `Life` (life.dfy): the `GOL` object: constructor, fills, swap, step, draw,
  set, get, start/stop/toggle, and `eventCoord`.
- `LifeLaws` (life_laws.dfy): laws that relate several calls.
- `Ui` (ui.dfy): the `Controller` handlers and page start-up.

What the model takes as parameters instead of computing:

- **The Life rule.** `glsl/gol.frag` is not part of this model. The step
  program is a parameter `shader: (Grid, int, int) -> Rgba`: the texel it
  writes at `(x, y)`, given the texture bound as `state`. Because the shader
  only sees the front texture, "step reads only the front" holds by
  construction. `LifeLaws.StepIgnoresBack` states it as a law.
- **Randomness.** `Math.random()` results arrive as `draws: seq<real>`. There is
  one draw per cell, each in [0, 1), taken in the order the fill loop consumes them.
- **The clock.** `Date.now()` readings arrive as milliseconds. `step` reads
  `GOL.now()` twice, once for the comparison and once for the assignment, so
  `Life.Step` takes both readings.
- **WebGL's own checks.** The JavaScript performs no checks of its own, so
  the model follows WebGL's behaviour:
  - A `set` outside the texture is rejected by WebGL and changes nothing.
  - A `fill` with fewer bytes than the texture is rejected and changes nothing.
  - A `fill` with more bytes uses only the first `4 * cells` of them.
  - A texture created without data starts as all zero bytes. So after
    construction the back texture is all zeros.

Behaviour of the code that the model keeps as it is:

- `set` outside the grid and a `fill` with too little data are WebGL no-ops.
  WebGL raises its error flag for them, but neither call throws, and the code
  never reads `gl.getError()`.
- `fillRandom` accepts any chance. With a chance of 1 or more, every cell is alive.
- The step that enters a new second resets `fps` to 0 instead of 1. The figure
  shown at the next boundary therefore counts the steps of the second that
  held the last step before the boundary, minus the one that entered it. That
  second need not be the one just before the boundary: after a stop and a
  later start it can lie well in the past. At the first boundary after
  construction the count is exact, because the constructor starts `fps` at 0
  in the current second without such a step.
- The controller paints at the cell `eventCoord` computes as written, including
  its vertical off-by-one (see "Findings").

## Model

| member | source | states |
|---|---|---|
| `Life.New` | js/gol.js:7-39 | Fails exactly when there is no WebGL context. Otherwise the state is valid and stopped: `fps` is 0 and `lasttick` is the current second. The front holds the random fill with the given or default chance. The back is all zero bytes. |
| `Life.ScaleOf` | js/gol.js:13 | A missing or zero scale becomes 4; any other scale is kept. |
| `Life.ChanceOf` | js/gol.js:90 | A missing chance becomes 0.5; a given one is kept. |
| `Life.Seconds` | js/gol.js:44-46 | `GOL.now()` is the whole second that contains the millisecond reading. |
| `Life.Fill` | js/gol.js:74-81 | With enough data, the front becomes the first `4 * cells` bytes. Short data leaves the state unchanged. The back texture, the designation, the timer and the counter are always untouched. |
| `Life.RandomGrid` | js/gol.js:91-96 | Has length `4 * cells` and is in the cell encoding. Cell `k` is alive exactly when draw `k` is below the chance. |
| `Life.RandomBuffer` | js/gol.js:91-96 | The source's loop writes four bytes per cell into a zeroed array and builds exactly `RandomGrid`. |
| `Life.FillRandom` | js/gol.js:88-99 | The front becomes `RandomGrid` for the given or default chance. Nothing else changes and validity is kept. |
| `Life.FillEmpty` | js/gol.js:105-108 | Every front cell becomes `[0,0,0,255]`, whatever the draws. The back, the designation, the timer, the counter, the scale and the canvas size are unchanged. |
| `Life.Swap` | js/gol.js:114-119 | Front and back exchange names. Both grids keep their contents. |
| `Life.Render` | js/gol.js:133-143 | The step program writes a `4 * w * h`-byte target. The texel of every cell `(x, y)` is the shader's output for that cell, computed from the source grid. |
| `Life.Tick` | js/gol.js:126-132 | A figure is displayed exactly when the first clock reading differs from `lasttick`. If so, it shows the old `fps`, resets `fps` to 0 and stores the second reading. Otherwise `fps` grows by one and `lasttick` stays. |
| `Life.Step` | js/gol.js:125-146 | The new front is the rendered next generation of the old front. The new back is the old front, unchanged. The designation flips. The counter follows `Tick`, and validity and the timer are kept. |
| `Life.Draw` | js/gol.js:152-163 | Leaves the whole model state as it was. |
| `Life.Set` | js/gol.js:171-178 | Inside the grid, cell `(x, y)` becomes `[v,v,v,255]` (`v` is 255 when alive, 0 otherwise) and every other byte of the front is kept. Outside the grid, nothing changes. The back texture is always untouched. |
| `Life.Get` | js/gol.js:183-191 | Returns `4 * cells` bytes, the full front texture. |
| `Life.Start` | js/gol.js:197-205 | The timer ends up running. A running simulation is returned unchanged. |
| `Life.Stop` | js/gol.js:211-215 | The timer ends up stopped. Nothing else changes. |
| `Life.Toggle` | js/gol.js:221-227 | Flips the running status. Nothing else changes. |
| `Life.EventCoordAsWritten` | js/gol.js:234-241 | As written: the column is the `scale`-block that holds `pageX - left - 1`. The row is the block that holds `height - (pageY - top - 1)`. |
| `Life.EventCoord` | js/gol.js:234-241 | Corrected: the column is as above. The row is the block that holds `height - 1 - (pageY - top - 1)`, which is the pixel's row counted from the bottom. |
| `Pixels.CellPixel` | js/gol.js:171-177 | A cell texel is grey and opaque. Its channels are 255 exactly when the cell is alive and 0 exactly when it is dead. |
| `Pixels.CellPixelRoundTrip` | js/gol.js:93-95 | A texel is in the cell encoding exactly when it is `CellPixel` of its own decoded state. Decoding `CellPixel(b)` gives back `b`. |
| `Pixels.WriteTexel` | js/gol.js:175-177 | A 1x1 texture write replaces the four bytes of one texel and keeps every other byte. |
| `LifeLaws.SwapTwice` | js/gol.js:114-119 | Swapping twice restores the state. |
| `LifeLaws.StepIgnoresBack` | js/gol.js:133-144 | Two states that differ only in the back texture step to identical results. |
| `LifeLaws.TwoSteps` | js/gol.js:125-146 | After two steps, the front is the rule applied twice and the back is the one-step generation. `textures.front` names its original texture again. |
| `LifeLaws.StepKeepsCells` | js/gol.js:133-144 | If the shader writes only cell texels, both textures are in the cell encoding after a step. |
| `LifeLaws.GetAfterFill` | js/gol.js:183-190 | `get()` right after `fill(state)` returns `state` when `state` has one texel per cell. |
| `LifeLaws.ShortFillIsIgnored` | js/gol.js:77-79 | A `fill` with too little data leaves what `get` returns unchanged. |
| `LifeLaws.DrawIsObservationallyInert` | js/gol.js:152-162 | `draw` changes neither what `get` returns nor the result of the next `step`. |
| `LifeLaws.FillRandomDefault` | js/gol.js:88-97 | With no chance given, the fill has `4 * cells` bytes in the cell encoding. Each cell is alive exactly when its draw is below one half. |
| `LifeLaws.FillRandomCertain` | js/gol.js:93 | A chance of 1 or more makes every cell alive. |
| `LifeLaws.FillEmptyIsDeterministic` | js/gol.js:105-107 | `fillEmpty` gives the same state for any draws and any argument. |
| `LifeLaws.SetThenRead` | js/gol.js:171-177 | After `set`, the cell decodes as the value written and is a cell texel. Every other cell and the back texture are unchanged. |
| `LifeLaws.SetLastWins` | js/gol.js:171-177 | Of two `set` calls on the same cell, the later one decides the state. |
| `LifeLaws.SetKeepsCells` | js/gol.js:171-177 | `set` keeps a front that is in the cell encoding in the cell encoding. |
| `LifeLaws.TimerLaws` | js/gol.js:197-227 | `start` is idempotent and `stop` always stops. Toggling twice restores the state. A toggle flips the running status and leaves both grids alone. |
| `LifeLaws.FramesWithinSecond` | js/gol.js:126-132 | Steps within the recorded second add one each to `fps` and display nothing. |
| `LifeLaws.FpsShownAtBoundary` | js/gol.js:126-132 | Take a step that enters second `t`, then `n` more steps in `t`. The first step of a later second displays `n`. |
| `LifeLaws.FpsFirstSecond` | js/gol.js:18-19 | From the constructor's counter (0 in the current second), `k` steps in that second followed by a step in a later second display exactly `k` at that boundary. |
| `LifeLaws.EventCoordAsWrittenTopRowMissesGrid` | js/gol.js:238-240 | As written, a pointer on the top content row maps to row `statesize.y`, just past the grid. The `set` it triggers changes nothing. |
| `LifeLaws.EventCoordAsWrittenFlips` | js/gol.js:239-240 | As written, a larger `pageY` never gives a larger cell row. |
| `LifeLaws.EventCoordOnGrid` | js/gol.js:238-240 | With the corrected flip, every pointer on the canvas content maps to a cell inside the grid. |
| `LifeLaws.EventCoordFlips` | js/gol.js:239-240 | The corrected mapping also never gives a larger cell row for a larger `pageY`. |
| `Ui.Attach` | js/gol.js:246-250 | A new controller holds the simulation and is not dragging. |
| `Ui.Paint` | js/gol.js:253-255 | Sets the cell that the as-written `eventCoord` picks, then redraws. If that cell is inside the grid, it becomes alive for the left button (`which == 1`) and dead otherwise. Every other cell is kept. If the cell is outside the grid, the state is unchanged. The back texture, the designation, the timer and validity are always kept. |
| `Ui.MouseDown` | js/gol.js:251-256 | Remembers the button and paints at the as-written `eventCoord` cell. |
| `Ui.MouseUp` | js/gol.js:257-259 | Forgets the button and leaves the simulation alone. |
| `Ui.MouseMove` | js/gol.js:260-266 | Paints with the remembered button while one is held. Otherwise it changes nothing. "Held" is `Ui.Dragging`: the truthiness of `drag`, so a button code of 0 counts as not held. |
| `Ui.KeyUp` | js/gol.js:271-286 | Key 82 (`r`) refills at random with chance 0.5. Key 46 (delete) is `fillEmpty()`: every cell dead, and only the front texture changes. Key 32 (space) toggles the animation. Any other key changes nothing. |
| `Ui.Boot` | js/gol.js:290-295 | Page start-up fails exactly without WebGL. Otherwise the simulation is valid and running, at the default scale 4 and the canvas size, with the constructor's counter (0 in the current second) and an all-zero back texture. It is randomly filled with chance 0.5, and nothing is being dragged. |
| `Ui.PressPaints` | js/gol.js:251-256 | A press at an in-grid `eventCoord` cell paints it (alive for the left button, dead for any other) and leaves every other cell alone. A press that maps outside the grid changes no cell. |
| `Ui.PressOnTopRowIsLost` | js/gol.js:251-256 | A press on the top row of canvas content leaves the simulation unchanged, because `eventCoord` maps it one row past the grid. It still records the button. |
| `Ui.DragThenRelease` | js/gol.js:257-266 | While the button is held, moving paints the `eventCoord` cell with that button and keeps every other cell, or changes nothing when that cell is outside the grid. After the release, moving changes nothing. |
| `Ui.SpaceTwice` | js/gol.js:281-283 | Pressing space twice restores the controller. |

## Left out

- WebGL and Igloo objects are not modelled: the context, programs, quad
  buffer, framebuffer and texture parameters. They are foreign library calls.
  Textures are byte sequences, and the `REPEAT` wrapping only matters inside
  the shader.
- `glsl/gol.frag`, `glsl/copy.frag` and `glsl/quad.vert` are not part of this
  model. The Life rule is the `shader` parameter, so nothing is claimed about
  Conway's rule itself.
- Life.Draw: does not model the image copied to the canvas, only that the
  simulation state is unchanged, because the copy shader is not part of this model.
- Life.Get: its contract gives only the length. What it returns is stated
  through `LifeLaws.GetAfterFill`, because `get` returns the front texture
  unchanged.
- `alert` is not modelled; it is a browser dialog. The FPS label
  `$('.fps').text` is reduced to the `shown` output of `Life.Step`.
- `setInterval`/`clearInterval` timing is not modelled; the host schedules it.
  The timer is a flag, and the 60 ms callback (`step` then `draw`) is not
  modelled.
- jQuery event binding and the `contextmenu` handler are not modelled. The
  handler only suppresses the browser menu.
- Life.New: requires the scale to divide the canvas width and height. The
  source does not floor `statesize`, and WebGL's handling of a fractional
  texture size is out of scope.
- Life.EventCoordAsWritten: takes page positions, offsets and the element's
  CSS height as whole pixels. `OnCanvas` assumes the CSS height equals the
  canvas height.
- Life.EventCoord: makes the same whole-pixel and CSS-height assumptions as
  `Life.EventCoordAsWritten`.
- `set` called with a non-boolean state, and `NaN` chances or draws, are not modelled.

## Findings

| source | as written | input that shows it | evidently intended | confidence | as-written member | corrected member |
|---|---|---|---|---|---|---|
| js/gol.js:239 | `y = $target.height() - (event.pageY - offset.top - border)` | A 512-pixel-high canvas with scale 4, and a pointer on the top row of content (`pageY - top - 1 == 0`). Then `y = 512` and the cell row is `128 == statesize.y`, so `set` is rejected and the click is lost. More generally, the top pixel row of every cell's block maps to the cell above it. | `y = height - 1 - (pageY - top - border)`: content row `r` from the top is row `height - 1 - r` from the bottom. | medium; not executed | `LifeLaws.EventCoordAsWrittenTopRowMissesGrid` | `LifeLaws.EventCoordOnGrid` |

The as-written mapping is `Life.EventCoordAsWritten`, and the controller
(`Ui.Paint`) uses it, as the code does. `Ui.PressOnTopRowIsLost` shows the
lost click at the controller level. The corrected mapping is `Life.EventCoord`.

=== FILE: life.dfy ===
/**
  The `GOL` simulation object of js/gol.js, with WebGL abstracted away.

  The two state textures are byte grids `a` and `b`; `frontIsA` says which of
  them `textures.front` currently names. The timer handle is reduced to
  whether it is set, and the once-per-second FPS counter is kept as is.
  Nondeterministic inputs are parameters: `Math.random()` results arrive as a
  sequence of reals in [0, 1), one per cell in the order the fill loop asks for
  them, and `Date.now()` readings arrive as integers of milliseconds.
 */
module Life {
  import opened Pixels

  datatype Option<T> = None | Some(value: T)

  datatype Result<T, E> = Ok(value: T) | Err(error: E)

  /** The constructor's only failure: no WebGL context for the canvas. */
  datatype InitError = NoWebGL

  /** Cell size in pixels when the constructor is given none (or 0). */
  const DefaultScale: int := 4

  /** Chance of a live cell when `fillRandom` is given no probability. */
  const DefaultChance: real := 0.5

  const MillisPerSecond: int := 1000

  /** The `fps` / `lasttick` pair of the simulation object. */
  datatype Counter = Counter(fps: nat, lasttick: int)

  datatype Gol = Gol(
    scale: int,        // cell size in pixels
    viewW: int,        // canvas width in pixels
    viewH: int,        // canvas height in pixels
    a: Grid,           // first state texture
    b: Grid,           // second state texture
    frontIsA: bool,    // whether `textures.front` is `a`
    running: bool,     // whether `timer` is non-null
    counter: Counter)

  /** The fragment shader of the step program: the texel it writes at
      `(x, y)`, given the texture bound as `state`. */
  type Shader = (Grid, int, int) -> Rgba

  // ---------------------------------------------------------------------
  // Geometry

  /** `statesize.x` */
  function Width(s: Gol): int
    requires s.scale > 0
  {
    s.viewW / s.scale
  }

  /** `statesize.y` */
  function Height(s: Gol): int
    requires s.scale > 0
  {
    s.viewH / s.scale
  }

  function Cells(s: Gol): int
    requires s.scale > 0
  {
    Width(s) * Height(s)
  }

  /** Cell `(x, y)` lies inside the grid. */
  predicate InGrid(s: Gol, x: int, y: int)
    requires s.scale > 0
  {
    0 <= x < Width(s) && 0 <= y < Height(s)
  }

  /** The state invariant the constructor establishes and every operation keeps:
      the canvas divides into whole cells and both textures hold one texel per cell. */
  predicate Valid(s: Gol)
  {
    && s.scale > 0
    && s.viewW >= 0 && s.viewH >= 0
    && s.viewW % s.scale == 0 && s.viewH % s.scale == 0
    && |s.a| == TexelBytes * Cells(s)
    && |s.b| == TexelBytes * Cells(s)
  }

  /** Row-major texel index of cell `(x, y)`; row 0 is the first row WebGL reads and writes. */
  function CellIndex(w: int, x: int, y: int): int
  {
    y * w + x
  }

  lemma CellIndexInRange(w: int, h: int, x: int, y: int)
    requires 0 <= x < w && 0 <= y < h
    ensures 0 <= CellIndex(w, x, y) < w * h
  {
    assert y * w + x < y * w + w == (y + 1) * w;
    assert (y + 1) * w <= h * w;
  }

  /** Distinct cells have distinct texel indices. */
  lemma CellIndexInjective(w: int, x1: int, y1: int, x2: int, y2: int)
    requires 0 <= x1 < w && 0 <= x2 < w && 0 <= y1 && 0 <= y2
    requires (x1, y1) != (x2, y2)
    ensures CellIndex(w, x1, y1) != CellIndex(w, x2, y2)
  {
    if y1 == y2 {
    } else if y1 < y2 {
      assert y1 * w + x1 < (y1 + 1) * w <= y2 * w;
    } else {
      assert y2 * w + x2 < (y2 + 1) * w <= y1 * w;
    }
  }

  /** The cell at `(x, y)` decomposes back into its coordinates. */
  lemma CellIndexCoords(w: int, x: int, y: int)
    requires 0 <= x < w && 0 <= y
    ensures CellIndex(w, x, y) % w == x
    ensures CellIndex(w, x, y) / w == y
  {
    var k := CellIndex(w, x, y);
    var q, m := k / w, k % w;
    assert k == q * w + m && 0 <= m < w;
    if q < y {
      MulMonotone(q + 1, y, w);
    } else if q > y {
      MulMonotone(y + 1, q, w);
    }
  }

  lemma MulMonotone(a: int, b: int, w: int)
    requires a <= b && 0 <= w
    ensures a * w <= b * w
  {
  }

  // ---------------------------------------------------------------------
  // Textures

  function Front(s: Gol): Grid
  {
    if s.frontIsA then s.a else s.b
  }

  function Back(s: Gol): Grid
  {
    if s.frontIsA then s.b else s.a
  }

  /** Replaces the contents of the texture `textures.front` names. */
  function WithFront(s: Gol, g: Grid): (r: Gol)
    ensures Front(r) == g && Back(r) == Back(s)
    ensures r.frontIsA == s.frontIsA && r.running == s.running && r.counter == s.counter
    ensures r.scale == s.scale && r.viewW == s.viewW && r.viewH == s.viewH
  {
    if s.frontIsA then s.(a := g) else s.(b := g)
  }

  /** Replaces the contents of the texture `textures.back` names. */
  function WithBack(s: Gol, g: Grid): (r: Gol)
    ensures Back(r) == g && Front(r) == Front(s)
    ensures r.frontIsA == s.frontIsA && r.running == s.running && r.counter == s.counter
    ensures r.scale == s.scale && r.viewW == s.viewW && r.viewH == s.viewH
  {
    if s.frontIsA then s.(b := g) else s.(a := g)
  }

  /** The texel of cell `(x, y)` in the front texture. */
  function CellOf(s: Gol, x: int, y: int): Rgba
    requires Valid(s)
    requires InGrid(s, x, y)
  {
    CellIndexInRange(Width(s), Height(s), x, y);
    PixelAt(Front(s), CellIndex(Width(s), x, y))
  }

  // ---------------------------------------------------------------------
  // Construction

  /** `scale || 4`: a missing or zero scale falls back to the default. */
  function ScaleOf(arg: Option<int>): (r: int)
    ensures arg.None? ==> r == DefaultScale
    ensures arg.Some? && arg.value == 0 ==> r == DefaultScale
    ensures arg.Some? && arg.value != 0 ==> r == arg.value
  {
    match arg
    case None => DefaultScale
    case Some(k) => if k == 0 then DefaultScale else k
  }

  /** `p == null ? 0.5 : p` */
  function ChanceOf(p: Option<real>): (r: real)
    ensures p.Some? ==> r == p.value
    ensures p.None? ==> r == DefaultChance
  {
    match p
    case None => DefaultChance
    case Some(q) => q
  }

  /** `GOL.now()`: whole seconds since the epoch, rounded down. */
  function Seconds(ms: int): (r: int)
    ensures r * MillisPerSecond <= ms < (r + 1) * MillisPerSecond
  {
    ms / MillisPerSecond
  }

  /** Results of `Math.random()`: each in [0, 1). */
  predicate IsRandomStream(draws: seq<real>)
  {
    forall i :: 0 <= i < |draws| ==> 0.0 <= draws[i] < 1.0
  }

  /** `new GOL(canvas, scale, p)` for a canvas of `w` x `h` pixels. Both
      textures are allocated empty (all bytes zero, which is what WebGL gives a
      texture created without data), then the front one is filled at random. */
  function New(w: int, h: int, scaleArg: Option<int>, p: Option<real>,
               hasWebGL: bool, nowMs: int, draws: seq<real>): (r: Result<Gol, InitError>)
    requires w >= 0 && h >= 0
    requires ScaleOf(scaleArg) > 0
    requires w % ScaleOf(scaleArg) == 0 && h % ScaleOf(scaleArg) == 0
    requires |draws| == (w / ScaleOf(scaleArg)) * (h / ScaleOf(scaleArg))
    ensures r.Err? <==> !hasWebGL
    ensures r.Ok? ==> Valid(r.value)
    ensures r.Ok? ==> r.value.scale == ScaleOf(scaleArg) && r.value.viewW == w && r.value.viewH == h
    ensures r.Ok? ==> !r.value.running && r.value.counter == Counter(0, Seconds(nowMs))
    ensures r.Ok? ==> Front(r.value) == RandomGrid(draws, ChanceOf(p))
    ensures r.Ok? ==> forall i :: 0 <= i < |Back(r.value)| ==> Back(r.value)[i] == Off
  {
    if !hasWebGL then Err(NoWebGL)
    else
      var sc := ScaleOf(scaleArg);
      var n := (w / sc) * (h / sc);
      var empty := seq(TexelBytes * n, _ => Off);
      var s := Gol(sc, w, h, empty, empty, true, false, Counter(0, Seconds(nowMs)));
      Ok(FillRandom(s, p, draws))
  }

  // ---------------------------------------------------------------------
  // Filling the front texture

  /** `fill(state)`: a full-size `texSubImage2D` into the front texture. WebGL
      rejects data shorter than the texture (leaving it unchanged) and uses only
      the first `4 * cells` bytes of longer data. */
  function Fill(s: Gol, data: Grid): (r: Gol)
    requires Valid(s)
    ensures Valid(r)
    ensures |data| >= TexelBytes * Cells(s) ==> Front(r) == data[..TexelBytes * Cells(s)]
    ensures |data| < TexelBytes * Cells(s) ==> r == s
    ensures Back(r) == Back(s)
    ensures r.frontIsA == s.frontIsA && r.running == s.running && r.counter == s.counter
    ensures r.scale == s.scale && r.viewW == s.viewW && r.viewH == s.viewH
  {
    var n := TexelBytes * Cells(s);
    if |data| < n then s else WithFront(s, data[..n])
  }

  /** The buffer `fillRandom` builds: cell `k` is alive exactly when the `k`-th
      draw is below `p`. */
  function RandomGrid(draws: seq<real>, p: real): (g: Grid)
    ensures |g| == TexelBytes * |draws|
    ensures IsCellGrid(g)
    ensures forall k :: 0 <= k < |draws| ==> PixelAt(g, k) == CellPixel(draws[k] < p)
  {
    var px := seq(|draws|, k requires 0 <= k < |draws| => CellPixel(draws[k] < p));
    BytesOfCells(px);
    Bytes(px)
  }

  /** Byte `j` of `RandomGrid(draws, p)`, spelled out per byte. */
  function RandomByte(draws: seq<real>, p: real, j: int): byte
    requires 0 <= j < TexelBytes * |draws|
  {
    Channel(CellPixel(draws[j / TexelBytes] < p), j % TexelBytes)
  }

  lemma RandomGridBytes(draws: seq<real>, p: real)
    ensures forall j :: 0 <= j < TexelBytes * |draws| ==> RandomGrid(draws, p)[j] == RandomByte(draws, p, j)
  {
  }

  /** The loop of `fillRandom`, writing four bytes per cell into a zeroed
      `Uint8Array`; it builds exactly `RandomGrid`. */
  method RandomBuffer(cells: nat, p: real, draws: seq<real>) returns (rand: Grid)
    requires |draws| == cells
    ensures rand == RandomGrid(draws, p)
  {
    rand := seq(TexelBytes * cells, _ => Off);
    var i, drawn := 0, 0;  // `drawn` counts the calls to `Math.random()`
    while i < |rand|
      invariant |rand| == TexelBytes * cells
      invariant 0 <= drawn <= cells && i == TexelBytes * drawn
      invariant forall j :: 0 <= j < i ==> rand[j] == RandomByte(draws, p, j)
    {
      var v := if draws[drawn] < p then On else Off;
      rand := rand[i := v][i + 1 := v][i + 2 := v][i + 3 := On];
      i, drawn := i + TexelBytes, drawn + 1;
    }
    RandomGridBytes(draws, p);
  }

  /** `fillRandom(p)`: fills the front texture with independent random cells,
      each alive with chance `p` (one half when omitted). */
  function FillRandom(s: Gol, p: Option<real>, draws: seq<real>): (r: Gol)
    requires Valid(s)
    requires |draws| == Cells(s)
    ensures Valid(r)
    ensures Front(r) == RandomGrid(draws, ChanceOf(p))
    ensures Back(r) == Back(s)
    ensures r.frontIsA == s.frontIsA && r.running == s.running && r.counter == s.counter
    ensures r.scale == s.scale && r.viewW == s.viewW && r.viewH == s.viewH
  {
    var rand := RandomGrid(draws, ChanceOf(p));
    assert rand[..TexelBytes * Cells(s)] == rand;
    Fill(s, rand)
  }

  /** `fillEmpty(p)`: `fillRandom(0)`; its own argument is ignored. */
  function FillEmpty(s: Gol, ignored: Option<real>, draws: seq<real>): (r: Gol)
    requires Valid(s)
    requires |draws| == Cells(s)
    requires IsRandomStream(draws)
    ensures Valid(r)
    ensures |Front(r)| == TexelBytes * Cells(s)
    ensures forall k :: 0 <= k < Cells(s) ==> PixelAt(Front(r), k) == CellPixel(false)
    ensures Back(r) == Back(s)
    ensures r.frontIsA == s.frontIsA && r.running == s.running && r.counter == s.counter
    ensures r.scale == s.scale && r.viewW == s.viewW && r.viewH == s.viewH
  {
    FillRandom(s, Some(0.0), draws)
  }

  // ---------------------------------------------------------------------
  // Stepping and drawing

  /** `swap()`: exchanges the names front and back; no texel moves. */
  function Swap(s: Gol): (r: Gol)
    ensures Front(r) == Back(s) && Back(r) == Front(s)
    ensures r.a == s.a && r.b == s.b
    ensures r.frontIsA != s.frontIsA
    ensures r.running == s.running && r.counter == s.counter
    ensures r.scale == s.scale && r.viewW == s.viewW && r.viewH == s.viewH
    ensures Valid(s) ==> Valid(r)
  {
    s.(frontIsA := !s.frontIsA)
  }

  /** Running the step program over the whole `w` x `h` viewport: every texel
      of the target is the shader's output for that fragment, reading `src`. */
  function Render(shader: Shader, src: Grid, w: int, h: int): (g: Grid)
    requires w >= 0 && h >= 0
    ensures |g| == TexelBytes * (w * h)
    ensures forall x, y :: 0 <= x < w && 0 <= y < h ==>
      CellIndex(w, x, y) < w * h && PixelAt(g, CellIndex(w, x, y)) == shader(src, x, y)
  {
    if w == 0 then [] else
    var px := seq(w * h, k requires 0 <= k < w * h => shader(src, k % w, k / w));
    var g := Bytes(px);
    forall x, y | 0 <= x < w && 0 <= y < h
      ensures CellIndex(w, x, y) < w * h && PixelAt(g, CellIndex(w, x, y)) == shader(src, x, y)
    {
      CellIndexInRange(w, h, x, y);
      CellIndexCoords(w, x, y);
    }
    g
  }

  /** The result of `step()`: the new state, and the FPS figure written to
      the page when a new second began. */
  datatype Stepped = Stepped(gol: Gol, shown: Option<nat>)

  /** The FPS bookkeeping at the top of `step()`. `first` is the `GOL.now()`
      compared with `lasttick` and `second` the one stored into it. */
  function Tick(c: Counter, first: int, second: int): (r: (Counter, Option<nat>))
    ensures r.1.Some? <==> first != c.lasttick
    ensures r.1.Some? ==> r.1.value == c.fps && r.0.fps == 0 && r.0.lasttick == second
    ensures r.1.None? ==> r.0.fps == c.fps + 1 && r.0.lasttick == c.lasttick
  {
    if first != c.lasttick then (Counter(0, second), Some(c.fps))
    else (Counter(c.fps + 1, c.lasttick), None)
  }

  /** `step()`: counts the frame, renders the next generation of the front
      texture into the back texture, then swaps them. `ms1` and `ms2` are the
      two clock readings the call makes. */
  function Step(s: Gol, shader: Shader, ms1: int, ms2: int): (r: Stepped)
    requires Valid(s)
    ensures Valid(r.gol)
    ensures Front(r.gol) == Render(shader, Front(s), Width(s), Height(s))
    ensures Back(r.gol) == Front(s)
    ensures (r.gol.counter, r.shown) == Tick(s.counter, Seconds(ms1), Seconds(ms2))
    ensures r.gol.frontIsA != s.frontIsA && r.gol.running == s.running
    ensures r.gol.scale == s.scale && r.gol.viewW == s.viewW && r.gol.viewH == s.viewH
  {
    var t := Tick(s.counter, Seconds(ms1), Seconds(ms2));
    var next := Render(shader, Front(s), Width(s), Height(s));
    Stepped(Swap(WithBack(s.(counter := t.0), next)), t.1)
  }

  /** `draw()`: copies the front texture to the canvas, which is outside the
      model; the simulation state is left as it was. */
  function Draw(s: Gol): (r: Gol)
    ensures r == s
  {
    s
  }

  // ---------------------------------------------------------------------
  // Single cells

  /** `set(x, y, state)`: a 1x1 `texSubImage2D` of `[v, v, v, 255]`, `v = 255`
      for a live cell and 0 otherwise, into the front texture. WebGL rejects a
      texel outside the texture, leaving everything unchanged. */
  function Set(s: Gol, x: int, y: int, alive: bool): (r: Gol)
    requires Valid(s)
    ensures Valid(r)
    ensures r.scale == s.scale && r.viewW == s.viewW && r.viewH == s.viewH
    ensures !InGrid(s, x, y) ==> r == s
    ensures InGrid(s, x, y) ==>
      && CellOf(r, x, y) == CellPixel(alive)
      && (forall j :: 0 <= j < |Front(s)| && (j < TexelBytes * CellIndex(Width(s), x, y) || TexelBytes * CellIndex(Width(s), x, y) + TexelBytes <= j)
            ==> Front(r)[j] == Front(s)[j])
    ensures Back(r) == Back(s)
    ensures r.frontIsA == s.frontIsA && r.running == s.running && r.counter == s.counter
  {
    if InGrid(s, x, y) then
      CellIndexInRange(Width(s), Height(s), x, y);
      WithFront(s, WriteTexel(Front(s), CellIndex(Width(s), x, y), CellPixel(alive)))
    else s
  }

  /** `get()`: reads the whole front texture back, `4 * cells` bytes. */
  function Get(s: Gol): (r: Grid)
    requires Valid(s)
    ensures |r| == TexelBytes * Cells(s)
  {
    Front(s)
  }

  // ---------------------------------------------------------------------
  // Animation

  /** `start()`: installs the timer unless one is already set. */
  function Start(s: Gol): (r: Gol)
    ensures r.running
    ensures s.running ==> r == s
    ensures r == s.(running := true)
  {
    if !s.running then s.(running := true) else s
  }

  /** `stop()`: clears the timer, whatever its state. */
  function Stop(s: Gol): (r: Gol)
    ensures !r.running
    ensures r == s.(running := false)
  {
    s.(running := false)
  }

  /** `toggle()`: starts when stopped, stops when running. */
  function Toggle(s: Gol): (r: Gol)
    ensures r.running == !s.running
    ensures r == s.(running := !s.running)
  {
    if !s.running then Start(s) else Stop(s)
  }

  // ---------------------------------------------------------------------
  // Pointer coordinates

  /** A pointer event: its page position, and the canvas element's page offset
      (border box) and CSS content height, all in whole CSS pixels. */
  datatype Pointer = Pointer(pageX: int, pageY: int, left: int, top: int, height: int)

  /** Width of the canvas border that `eventCoord` subtracts. */
  const Border: int := 1

  /** `eventCoord(event)` as written: column `(pageX - left - 1) / scale`, row
      `(height - (pageY - top - 1)) / scale`, both rounded down. */
  function EventCoordAsWritten(s: Gol, e: Pointer): (r: (int, int))
    requires s.scale > 0
    ensures r.0 * s.scale <= e.pageX - e.left - Border < (r.0 + 1) * s.scale
    ensures r.1 * s.scale <= e.height - (e.pageY - e.top - Border) < (r.1 + 1) * s.scale
  {
    var x := e.pageX - e.left - Border;
    var y := e.height - (e.pageY - e.top - Border);
    (x / s.scale, y / s.scale)
  }

  /** `eventCoord` with the vertical flip taken from the last pixel row: the
      content row `r` from the top is row `height - 1 - r` from the bottom. */
  function EventCoord(s: Gol, e: Pointer): (r: (int, int))
    requires s.scale > 0
    ensures r.0 * s.scale <= e.pageX - e.left - Border < (r.0 + 1) * s.scale
    ensures r.1 * s.scale <= e.height - 1 - (e.pageY - e.top - Border) < (r.1 + 1) * s.scale
  {
    var x := e.pageX - e.left - Border;
    var y := e.height - 1 - (e.pageY - e.top - Border);
    (x / s.scale, y / s.scale)
  }

  /** The pointer lies on the canvas content (inside the border). */
  predicate OnCanvas(s: Gol, e: Pointer)
  {
    && 0 <= e.pageX - e.left - Border < s.viewW
    && 0 <= e.pageY - e.top - Border < s.viewH
    && e.height == s.viewH
  }
}

=== FILE: life_laws.dfy ===
/**
  Laws relating several calls on the simulation object: double buffering,
  the fill/get round trip, cell writes, animation state, the FPS counter and
  the pointer-to-cell mapping.
 */
module LifeLaws {
  import opened Pixels
  import opened Life

  // ---------------------------------------------------------------------
  // Double buffering

  /** Swapping twice restores the original designation and contents. */
  lemma SwapTwice(s: Gol)
    ensures Swap(Swap(s)) == s
  {
  }

  /** `step` reads only the front texture: two states that agree on everything
      but the back texture step to the same textures and report the same FPS. */
  lemma StepIgnoresBack(s: Gol, t: Gol, shader: Shader, ms1: int, ms2: int)
    requires Valid(s) && Valid(t)
    requires t == WithBack(s, Back(t))
    ensures Step(s, shader, ms1, ms2) == Step(t, shader, ms1, ms2)
  {
    var rs, rt := Step(s, shader, ms1, ms2).gol, Step(t, shader, ms1, ms2).gol;
    assert rs.frontIsA == rt.frontIsA;
    if rs.frontIsA {
      assert rs.a == Front(rs) == Front(rt) == rt.a;
      assert rs.b == Back(rs) == Back(rt) == rt.b;
    } else {
      assert rs.b == Front(rs) == Front(rt) == rt.b;
      assert rs.a == Back(rs) == Back(rt) == rt.a;
    }
  }

  /** Two steps apply the rule twice, leave the one-step generation behind,
      and return `textures.front` to the texture it named at the start. */
  lemma TwoSteps(s: Gol, shader: Shader, ms1: int, ms2: int, ms3: int, ms4: int)
    requires Valid(s)
    ensures var once := Step(s, shader, ms1, ms2).gol;
            var twice := Step(once, shader, ms3, ms4).gol;
            && Front(twice) == Render(shader, Render(shader, Front(s), Width(s), Height(s)), Width(s), Height(s))
            && Back(twice) == Render(shader, Front(s), Width(s), Height(s))
            && twice.frontIsA == s.frontIsA
  {
  }

  /** When the step program writes only cell texels, stepping keeps both
      textures in the cell encoding. */
  lemma StepKeepsCells(s: Gol, shader: Shader, ms1: int, ms2: int)
    requires Valid(s)
    requires IsCellGrid(Front(s))
    requires forall g, x, y :: IsCellPixel(shader(g, x, y))
    ensures IsCellGrid(Front(Step(s, shader, ms1, ms2).gol))
    ensures IsCellGrid(Back(Step(s, shader, ms1, ms2).gol))
  {
    var w, h := Width(s), Height(s);
    var g := Render(shader, Front(s), w, h);
    forall k | 0 <= k < Texels(g)
      ensures IsCellPixel(PixelAt(g, k))
    {
      var x, y := CellCoords(w, h, k);
      assert PixelAt(g, CellIndex(w, x, y)) == shader(Front(s), x, y);
    }
  }

  /** Every texel index of a `w` x `h` texture is the index of some cell. */
  lemma CellCoords(w: int, h: int, k: int) returns (x: int, y: int)
    requires 0 <= k < w * h && w >= 0 && h >= 0
    ensures 0 <= x < w && 0 <= y < h && CellIndex(w, x, y) == k
  {
    x, y := k % w, k / w;
    assert k == y * w + x;
    if y >= h {
      MulMonotone(h, y, w);
    }
  }

  // ---------------------------------------------------------------------
  // Whole-texture reads and writes

  /** `get()` right after `fill(state)` returns `state` when it has one texel
      per cell: both cover the front texture from (0, 0) in the same order. */
  lemma GetAfterFill(s: Gol, g: Grid)
    requires Valid(s)
    requires |g| == TexelBytes * Cells(s)
    ensures Get(Fill(s, g)) == g
  {
    assert g[..TexelBytes * Cells(s)] == g;
  }

  /** `fill` with too little data changes nothing: `get` still returns the old front. */
  lemma ShortFillIsIgnored(s: Gol, g: Grid)
    requires Valid(s)
    requires |g| < TexelBytes * Cells(s)
    ensures Get(Fill(s, g)) == Get(s)
  {
  }

  /** `draw` neither changes what `get` returns nor what the next step does. */
  lemma DrawIsObservationallyInert(s: Gol, shader: Shader, ms1: int, ms2: int)
    requires Valid(s)
    ensures Get(Draw(s)) == Get(s)
    ensures Step(Draw(s), shader, ms1, ms2) == Step(s, shader, ms1, ms2)
  {
  }

  /** With the default chance, every cell of the new front is alive exactly
      when its draw is below one half, and every texel is a cell texel. */
  lemma FillRandomDefault(s: Gol, draws: seq<real>)
    requires Valid(s)
    requires |draws| == Cells(s)
    ensures var f := Get(FillRandom(s, None, draws));
      && |f| == TexelBytes * Cells(s)
      && IsCellGrid(f)
      && forall k :: 0 <= k < Cells(s) ==> Alive(PixelAt(f, k)) == (draws[k] < 0.5)
  {
    var f := Get(FillRandom(s, None, draws));
    forall k | 0 <= k < Cells(s)
      ensures Alive(PixelAt(f, k)) == (draws[k] < 0.5)
    {
      CellPixelRoundTrip(PixelAt(f, k), draws[k] < 0.5);
    }
  }

  /** A chance of one or more makes every cell alive. */
  lemma FillRandomCertain(s: Gol, p: real, draws: seq<real>)
    requires Valid(s)
    requires |draws| == Cells(s) && IsRandomStream(draws)
    requires p >= 1.0
    ensures forall k :: 0 <= k < Cells(s) ==> PixelAt(Get(FillRandom(s, Some(p), draws)), k) == CellPixel(true)
  {
  }

  /** `fillEmpty` gives the same state whatever the random stream and whatever
      argument it is passed. */
  lemma FillEmptyIsDeterministic(s: Gol, p1: Option<real>, p2: Option<real>, d1: seq<real>, d2: seq<real>)
    requires Valid(s)
    requires |d1| == Cells(s) && IsRandomStream(d1)
    requires |d2| == Cells(s) && IsRandomStream(d2)
    ensures FillEmpty(s, p1, d1) == FillEmpty(s, p2, d2)
  {
    var e1, e2 := FillEmpty(s, p1, d1), FillEmpty(s, p2, d2);
    var f1, f2 := Front(e1), Front(e2);
    assert |f1| == |f2|;
    forall j | 0 <= j < |f1|
      ensures f1[j] == f2[j]
    {
      var k := j / TexelBytes;
      assert PixelAt(f1, k) == PixelAt(f2, k);
    }
    assert f1 == f2;
    if s.frontIsA {
      assert e1.a == f1 && e2.a == f2;
    } else {
      assert e1.b == f1 && e2.b == f2;
    }
  }

  // ---------------------------------------------------------------------
  // Single cells

  /** After `set(x, y, alive)` the cell reads back as `alive`, every other cell
      reads as before, and the back texture is untouched. */
  lemma SetThenRead(s: Gol, x: int, y: int, alive: bool)
    requires Valid(s)
    requires InGrid(s, x, y)
    ensures var r := Set(s, x, y, alive);
      && Alive(CellOf(r, x, y)) == alive
      && IsCellPixel(CellOf(r, x, y))
      && Back(r) == Back(s)
      && forall x2, y2 :: InGrid(s, x2, y2) && (x2, y2) != (x, y) ==>
           CellOf(r, x2, y2) == CellOf(s, x2, y2)
  {
    var r := Set(s, x, y, alive);
    CellPixelRoundTrip(CellOf(r, x, y), alive);
    forall x2, y2 | InGrid(s, x2, y2) && (x2, y2) != (x, y)
      ensures CellOf(r, x2, y2) == CellOf(s, x2, y2)
    {
      CellIndexInjective(Width(s), x, y, x2, y2);
      CellIndexInRange(Width(s), Height(s), x2, y2);
    }
  }

  /** Of two writes to the same cell, the later one wins. */
  lemma SetLastWins(s: Gol, x: int, y: int, first: bool, second: bool)
    requires Valid(s)
    ensures Set(Set(s, x, y, first), x, y, second) == Set(s, x, y, second)
  {
    if InGrid(s, x, y) {
      CellIndexInRange(Width(s), Height(s), x, y);
      var k := CellIndex(Width(s), x, y);
      var lhs := Front(Set(Set(s, x, y, first), x, y, second));
      var rhs := Front(Set(s, x, y, second));
      assert |lhs| == |rhs|;
      forall j | 0 <= j < |lhs|
        ensures lhs[j] == rhs[j]
      {
        if TexelBytes * k <= j < TexelBytes * k + TexelBytes {
          assert PixelAt(lhs, k) == PixelAt(rhs, k);
        }
      }
      assert lhs == rhs;
      var l, r := Set(Set(s, x, y, first), x, y, second), Set(s, x, y, second);
      if s.frontIsA {
        assert l.a == lhs && r.a == rhs;
      } else {
        assert l.b == lhs && r.b == rhs;
      }
    }
  }

  /** Writing a cell keeps a cell-encoded front cell-encoded. */
  lemma SetKeepsCells(s: Gol, x: int, y: int, alive: bool)
    requires Valid(s)
    requires IsCellGrid(Front(s))
    ensures IsCellGrid(Front(Set(s, x, y, alive)))
  {
    if InGrid(s, x, y) {
      CellIndexInRange(Width(s), Height(s), x, y);
      CellPixelRoundTrip(CellPixel(alive), alive);
      WriteTexelKeepsCells(Front(s), CellIndex(Width(s), x, y), CellPixel(alive));
    }
  }

  // ---------------------------------------------------------------------
  // Animation state

  /** `start` on a running simulation changes nothing; `stop` always clears
      the timer; `toggle` twice restores the state; none touches the grids. */
  lemma TimerLaws(s: Gol)
    ensures Start(Start(s)) == Start(s)
    ensures Stop(Stop(s)) == Stop(s) && !Stop(Start(s)).running
    ensures Toggle(Toggle(s)) == s
    ensures Toggle(s).running != s.running
    ensures Front(Toggle(s)) == Front(s) && Back(Toggle(s)) == Back(s)
  {
  }

  // ---------------------------------------------------------------------
  // Frames per second

  /** The counter after steps whose clock readings are the seconds `secs`
      (both readings of a step falling in the same second), and the FPS
      figures those steps display. */
  function Frames(c: Counter, secs: seq<int>): (r: (Counter, seq<Option<nat>>))
    ensures |r.1| == |secs|
    decreases |secs|
  {
    if secs == [] then (c, [])
    else
      var t := Tick(c, secs[0], secs[0]);
      var rest := Frames(t.0, secs[1..]);
      (rest.0, [t.1] + rest.1)
  }

  /** Steps within the second already recorded add one frame each and
      display nothing. */
  lemma {:induction false} FramesWithinSecond(c: Counter, secs: seq<int>)
    requires forall i :: 0 <= i < |secs| ==> secs[i] == c.lasttick
    ensures Frames(c, secs).0 == Counter(c.fps + |secs|, c.lasttick)
    ensures forall i :: 0 <= i < |secs| ==> Frames(c, secs).1[i] == None
    decreases |secs|
  {
    if secs != [] {
      var t := Tick(c, secs[0], secs[0]);
      assert t.0 == Counter(c.fps + 1, c.lasttick);
      FramesWithinSecond(t.0, secs[1..]);
    }
  }

  /** The figure shown at a second boundary counts the steps of the previous
      second except the first: a step entering second `t` resets the count to
      zero, `n` further steps in `t` raise it to `n`, and the first step in a
      later second displays `n`. */
  lemma {:induction false} FpsShownAtBoundary(c: Counter, t: int, n: nat, later: int)
    requires c.lasttick != t && later != t
    ensures var secs := [t] + seq(n, _ => t) + [later];
      Frames(c, secs).1[n + 1] == Some(n)
  {
    var secs := [t] + seq(n, _ => t) + [later];
    var c1 := Tick(c, t, t).0;
    assert c1 == Counter(0, t);
    assert secs[1..] == seq(n, _ => t) + [later];
    var mid := seq(n, _ => t);
    FramesWithinSecond(c1, mid);
    FramesAppend(c1, mid, [later]);
    var cn := Frames(c1, mid).0;
    assert cn == Counter(n, t);
    assert Frames(cn, [later]).1[0] == Some(n);
  }

  /** The first boundary after construction is the exception: the constructor
      starts the count at 0 in the current second without a resetting step, so
      `k` steps in that second display exactly `k`. */
  lemma {:induction false} FpsFirstSecond(t0: int, k: nat, later: int)
    requires later != t0
    ensures var secs := seq(k, _ => t0) + [later];
      Frames(Counter(0, t0), secs).1[k] == Some(k)
  {
    var c0 := Counter(0, t0);
    var mid := seq(k, _ => t0);
    FramesWithinSecond(c0, mid);
    FramesAppend(c0, mid, [later]);
    assert Frames(Counter(k, t0), [later]).1[0] == Some(k);
  }

  /** Running steps in two batches is running them in one. */
  lemma {:induction false} FramesAppend(c: Counter, xs: seq<int>, ys: seq<int>)
    ensures Frames(c, xs + ys).0 == Frames(Frames(c, xs).0, ys).0
    ensures Frames(c, xs + ys).1 == Frames(c, xs).1 + Frames(Frames(c, xs).0, ys).1
    decreases |xs|
  {
    if xs == [] {
      assert xs + ys == ys;
    } else {
      var t := Tick(c, xs[0], xs[0]);
      assert (xs + ys)[0] == xs[0];
      assert (xs + ys)[1..] == xs[1..] + ys;
      FramesAppend(t.0, xs[1..], ys);
    }
  }

  // ---------------------------------------------------------------------
  // Pointer coordinates

  /** As written, `eventCoord` maps the top content row of pixels to the row
      just past the grid, where `set` is rejected: a click there is lost. */
  lemma EventCoordAsWrittenTopRowMissesGrid(s: Gol, e: Pointer, alive: bool)
    requires Valid(s)
    requires OnCanvas(s, e)
    requires e.pageY - e.top - Border == 0
    ensures EventCoordAsWritten(s, e).1 == Height(s)
    ensures Set(s, EventCoordAsWritten(s, e).0, EventCoordAsWritten(s, e).1, alive) == s
  {
  }

  /** As written, `eventCoord` still flips the vertical axis: further down
      the page never means a higher cell row. */
  lemma EventCoordAsWrittenFlips(s: Gol, e1: Pointer, e2: Pointer)
    requires s.scale > 0
    requires e1.height == e2.height && e1.top == e2.top
    requires e1.pageY <= e2.pageY
    ensures EventCoordAsWritten(s, e1).1 >= EventCoordAsWritten(s, e2).1
  {
    var y1 := e1.height - (e1.pageY - e1.top - Border);
    var y2 := e2.height - (e2.pageY - e2.top - Border);
    DivMonotone(y2, y1, s.scale);
  }

  /** The corrected mapping sends every pixel of the canvas content to a cell
      of the grid (the cell whose block holds the pixel, by `EventCoord`'s
      contract). */
  lemma EventCoordOnGrid(s: Gol, e: Pointer)
    requires Valid(s)
    requires OnCanvas(s, e)
    ensures 0 <= EventCoord(s, e).0 < Width(s)
    ensures 0 <= EventCoord(s, e).1 < Height(s)
  {
    var c := EventCoord(s, e);
    DivExact(s.viewW, s.scale);
    DivExact(s.viewH, s.scale);
    BlockBounds(c.0, e.pageX - e.left - Border, s.scale, Width(s));
    BlockBounds(c.1, e.height - 1 - (e.pageY - e.top - Border), s.scale, Height(s));
  }

  lemma DivExact(n: int, d: int)
    requires d > 0 && n % d == 0
    ensures n == (n / d) * d
  {
  }

  /** A value in `[0, n * d)` lies in a block `[c * d, (c + 1) * d)` only for `0 <= c < n`. */
  lemma BlockBounds(c: int, v: int, d: int, n: int)
    requires d > 0 && c * d <= v < (c + 1) * d && 0 <= v < n * d
    ensures 0 <= c < n
  {
    if c < 0 {
      MulMonotone(c + 1, 0, d);
    } else if c >= n {
      MulMonotone(n, c, d);
    }
  }

  /** The corrected mapping keeps the vertical flip. */
  lemma EventCoordFlips(s: Gol, e1: Pointer, e2: Pointer)
    requires s.scale > 0
    requires e1.height == e2.height && e1.top == e2.top
    requires e1.pageY <= e2.pageY
    ensures EventCoord(s, e1).1 >= EventCoord(s, e2).1
  {
    var y1 := e1.height - 1 - (e1.pageY - e1.top - Border);
    var y2 := e2.height - 1 - (e2.pageY - e2.top - Border);
    DivMonotone(y2, y1, s.scale);
  }

  lemma DivMonotone(a: int, b: int, d: int)
    requires a <= b && d > 0
    ensures a / d <= b / d
  {
    if a / d > b / d {
      MulMonotone(b / d + 1, a / d, d);
    }
  }
}

=== FILE: pixels.dfy ===
/**
  Byte-level representation of Life state in an RGBA texture.

  A texture of `w * h` texels is a flat byte sequence of length `4 * w * h`,
  texel `k` occupying bytes `4*k .. 4*k+3` in the order R, G, B, A. A Life
  cell is stored as the texel `[v, v, v, 255]` with `v` either 0 (dead) or
  255 (alive).
 */
module Pixels {

  newtype byte = x: int | 0 <= x < 256

  /** The contents of one RGBA texture, as handed to or read back from WebGL. */
  type Grid = seq<byte>

  datatype Rgba = Rgba(r: byte, g: byte, b: byte, a: byte)

  /** Bytes per texel in an RGBA / UNSIGNED_BYTE texture. */
  const TexelBytes: int := 4

  const Off: byte := 0
  const On: byte := 255

  function Channel(p: Rgba, c: int): byte
    requires 0 <= c < TexelBytes
  {
    if c == 0 then p.r else if c == 1 then p.g else if c == 2 then p.b else p.a
  }

  /** The texel with index `k` of `g`. */
  function PixelAt(g: Grid, k: int): Rgba
    requires 0 <= k && TexelBytes * k + TexelBytes <= |g|
  {
    var i := TexelBytes * k;
    Rgba(g[i], g[i + 1], g[i + 2], g[i + 3])
  }

  /** Number of whole texels in `g`. */
  function Texels(g: Grid): nat
  {
    |g| / TexelBytes
  }

  /** Lays a sequence of texels out as bytes, texel after texel. */
  function Bytes(px: seq<Rgba>): (g: Grid)
    ensures |g| == TexelBytes * |px|
    ensures forall k :: 0 <= k < |px| ==> PixelAt(g, k) == px[k]
  {
    seq(TexelBytes * |px|, i requires 0 <= i < TexelBytes * |px| => Channel(px[i / TexelBytes], i % TexelBytes))
  }

  /** Overwrites texel `k` of `g` with `p`, as a 1x1 `texSubImage2D` does. */
  function WriteTexel(g: Grid, k: int, p: Rgba): (r: Grid)
    requires 0 <= k && TexelBytes * k + TexelBytes <= |g|
    ensures |r| == |g|
    ensures PixelAt(r, k) == p
    ensures forall j :: 0 <= j < |g| && (j < TexelBytes * k || TexelBytes * k + TexelBytes <= j) ==> r[j] == g[j]
  {
    var i := TexelBytes * k;
    g[i := p.r][i + 1 := p.g][i + 2 := p.b][i + 3 := p.a]
  }

  /** The texel `set` and `fillRandom` store for a live or dead cell. */
  function CellPixel(alive: bool): (p: Rgba)
    ensures p.r == p.g == p.b
    ensures p.a == On
    ensures alive <==> p.r == On
    ensures !alive <==> p.r == Off
  {
    var v := if alive then On else Off;
    Rgba(v, v, v, On)
  }

  /** A texel in the cell encoding: grey, fully on or fully off, and opaque. */
  predicate IsCellPixel(p: Rgba)
  {
    p.r == p.g == p.b && (p.r == Off || p.r == On) && p.a == On
  }

  /** Reads a cell back from its texel (the red channel decides). */
  function Alive(p: Rgba): bool
  {
    p.r == On
  }

  /** Every texel of `g` is in the cell encoding. */
  predicate IsCellGrid(g: Grid)
  {
    |g| % TexelBytes == 0 &&
    forall k :: 0 <= k < Texels(g) ==> IsCellPixel(PixelAt(g, k))
  }

  /** The cell encoding is exactly the image of `CellPixel`, and `Alive` inverts it. */
  lemma CellPixelRoundTrip(p: Rgba, alive: bool)
    ensures IsCellPixel(CellPixel(alive))
    ensures Alive(CellPixel(alive)) == alive
    ensures IsCellPixel(p) <==> p == CellPixel(Alive(p))
  {
  }

  /** A grid built from cell texels is a cell grid. */
  lemma BytesOfCells(px: seq<Rgba>)
    requires forall k :: 0 <= k < |px| ==> IsCellPixel(px[k])
    ensures IsCellGrid(Bytes(px))
    ensures Texels(Bytes(px)) == |px|
  {
  }

  /** Writing a cell texel into a cell grid keeps it a cell grid. */
  lemma WriteTexelKeepsCells(g: Grid, k: int, p: Rgba)
    requires IsCellGrid(g) && IsCellPixel(p)
    requires 0 <= k && TexelBytes * k + TexelBytes <= |g|
    ensures IsCellGrid(WriteTexel(g, k, p))
  {
    var r := WriteTexel(g, k, p);
    forall j | 0 <= j < Texels(r)
      ensures IsCellPixel(PixelAt(r, j))
    {
      if j != k {
        assert PixelAt(r, j) == PixelAt(g, j);
      }
    }
  }
}

=== FILE: ui.dfy ===
/**
  The `Controller` of js/gol.js: pointer and keyboard handlers turned into
  calls on the simulation. jQuery's event binding is outside the model; each
  handler is a function from the controller state and the event's payload to
  the new controller state.
 */
module Ui {
  import opened Pixels
  import opened Life
  import LifeLaws

  /** The simulation and `drag`, the button held down (`null` when none). */
  datatype Controller = Controller(gol: Gol, drag: Option<int>)

  /** `event.which` of the left mouse button. */
  const LeftButton: int := 1

  const KeyR: int := 82
  const KeyDelete: int := 46
  const KeySpace: int := 32

  /** `new Controller(gol)`: nothing is being dragged. */
  function Attach(gol: Gol): (c: Controller)
    ensures c.gol == gol && !Dragging(c)
  {
    Controller(gol, None)
  }

  /** The truthiness test `if (_this.drag)`: a button is held and it is not 0. */
  predicate Dragging(c: Controller)
  {
    c.drag.Some? && c.drag.value != 0
  }

  /** `gol.set(pos.x, pos.y, _this.drag == 1)` at `pos = gol.eventCoord(event)`,
      then a redraw: the cell under the pointer becomes alive exactly for the
      left button. When the mapped cell lies outside the grid WebGL rejects the
      write and nothing changes. */
  function Paint(gol: Gol, e: Pointer, which: int): (r: Gol)
    requires Valid(gol)
    ensures Valid(r) && Back(r) == Back(gol) && r.running == gol.running && r.counter == gol.counter
    ensures r.scale == gol.scale && r.viewW == gol.viewW && r.viewH == gol.viewH
    ensures var (x, y) := EventCoordAsWritten(gol, e);
      InGrid(gol, x, y) ==> CellOf(r, x, y) == CellPixel(which == LeftButton)
    ensures var (x, y) := EventCoordAsWritten(gol, e);
      InGrid(gol, x, y) ==> forall x2, y2 :: InGrid(gol, x2, y2) && (x2, y2) != (x, y) ==>
        CellOf(r, x2, y2) == CellOf(gol, x2, y2)
    ensures var (x, y) := EventCoordAsWritten(gol, e);
      !InGrid(gol, x, y) ==> r == gol
    ensures r.frontIsA == gol.frontIsA
  {
    var (x, y) := EventCoordAsWritten(gol, e);
    var r := Draw(Set(gol, x, y, which == LeftButton));
    if InGrid(gol, x, y) then
      LifeLaws.SetThenRead(gol, x, y, which == LeftButton);
      r
    else r
  }

  /** `mousedown`: remembers the button and paints under the pointer. */
  function MouseDown(c: Controller, which: int, e: Pointer): (r: Controller)
    requires Valid(c.gol)
    ensures r.drag == Some(which)
    ensures r.gol == Paint(c.gol, e, which)
  {
    Controller(Paint(c.gol, e, which), Some(which))
  }

  /** `mouseup`: forgets the button. */
  function MouseUp(c: Controller): (r: Controller)
    ensures r.gol == c.gol && !Dragging(r)
  {
    c.(drag := None)
  }

  /** `mousemove`: paints with the remembered button while one is held. */
  function MouseMove(c: Controller, e: Pointer): (r: Controller)
    requires Valid(c.gol)
    ensures !Dragging(c) ==> r == c
    ensures Dragging(c) ==> r.drag == c.drag && r.gol == Paint(c.gol, e, c.drag.value)
  {
    if Dragging(c) then c.(gol := Paint(c.gol, e, c.drag.value)) else c
  }

  /** `keyup`: `r` refills at random, delete clears, space toggles the
      animation; other keys do nothing. `draws` feeds `Math.random()`. */
  function KeyUp(c: Controller, code: int, draws: seq<real>): (r: Controller)
    requires Valid(c.gol)
    requires code == KeyR || code == KeyDelete ==> |draws| == Cells(c.gol) && IsRandomStream(draws)
    ensures r.drag == c.drag && Valid(r.gol)
    ensures code == KeyR ==> r.gol == FillRandom(c.gol, None, draws)
    ensures code == KeyDelete ==> r.gol == FillEmpty(c.gol, None, draws)
    ensures code == KeyDelete ==>
      && Back(r.gol) == Back(c.gol) && r.gol.running == c.gol.running
      && forall k :: 0 <= k < Cells(c.gol) ==> PixelAt(Get(r.gol), k) == CellPixel(false)
    ensures code == KeySpace ==> r.gol == Toggle(c.gol)
    ensures code != KeyR && code != KeyDelete && code != KeySpace ==> r == c
  {
    if code == KeyR then c.(gol := Draw(FillRandom(c.gol, None, draws)))
    else if code == KeyDelete then c.(gol := Draw(FillEmpty(c.gol, None, draws)))
    else if code == KeySpace then c.(gol := Toggle(c.gol))
    else c
  }

  /** Page start-up: `new GOL(canvas).draw().start()` with the default scale
      and chance, then `new Controller(gol)`. */
  function Boot(w: int, h: int, hasWebGL: bool, nowMs: int, draws: seq<real>): (r: Result<Controller, InitError>)
    requires w >= 0 && h >= 0 && w % DefaultScale == 0 && h % DefaultScale == 0
    requires |draws| == (w / DefaultScale) * (h / DefaultScale)
    ensures r.Err? <==> !hasWebGL
    ensures r.Ok? ==> Valid(r.value.gol) && r.value.gol.running && !Dragging(r.value)
    ensures r.Ok? ==> Get(r.value.gol) == RandomGrid(draws, DefaultChance)
    ensures r.Ok? ==> r.value.gol.scale == DefaultScale && r.value.gol.viewW == w && r.value.gol.viewH == h
    ensures r.Ok? ==> r.value.gol.counter == Counter(0, Seconds(nowMs))
    ensures r.Ok? ==> forall i :: 0 <= i < |Back(r.value.gol)| ==> Back(r.value.gol)[i] == Off
  {
    match New(w, h, None, None, hasWebGL, nowMs, draws)
    case Err(e) => Err(e)
    case Ok(gol) => Ok(Attach(Start(Draw(gol))))
  }

  // ---------------------------------------------------------------------
  // Laws of the handlers

  /** A press paints the cell `eventCoord` picks alive with the left button
      and dead with any other, leaving every other cell alone; when that cell
      is outside the grid the press changes no cell. */
  lemma PressPaints(c: Controller, which: int, e: Pointer)
    requires Valid(c.gol)
    ensures var (x, y) := EventCoordAsWritten(c.gol, e);
      InGrid(c.gol, x, y) ==>
      && Alive(CellOf(MouseDown(c, which, e).gol, x, y)) == (which == LeftButton)
      && forall x2, y2 :: InGrid(c.gol, x2, y2) && (x2, y2) != (x, y) ==>
           CellOf(MouseDown(c, which, e).gol, x2, y2) == CellOf(c.gol, x2, y2)
    ensures var (x, y) := EventCoordAsWritten(c.gol, e);
      !InGrid(c.gol, x, y) ==> MouseDown(c, which, e).gol == c.gol
  {
    var (x, y) := EventCoordAsWritten(c.gol, e);
    if InGrid(c.gol, x, y) {
      LifeLaws.SetThenRead(c.gol, x, y, which == LeftButton);
    }
  }

  /** A press on the top row of canvas content paints nothing: `eventCoord`
      maps it one row past the grid. */
  lemma PressOnTopRowIsLost(c: Controller, which: int, e: Pointer)
    requires Valid(c.gol) && OnCanvas(c.gol, e)
    requires e.pageY - e.top - Border == 0
    ensures MouseDown(c, which, e).gol == c.gol
    ensures MouseDown(c, which, e).drag == Some(which)
  {
    LifeLaws.EventCoordAsWrittenTopRowMissesGrid(c.gol, e, which == LeftButton);
  }

  /** Dragging keeps painting with the button that was pressed, touching only
      the cell under the pointer, and after the release moving the pointer
      changes nothing. */
  lemma DragThenRelease(c: Controller, which: int, e1: Pointer, e2: Pointer, e3: Pointer)
    requires Valid(c.gol) && which != 0
    ensures var down := MouseDown(c, which, e1);
      var moved := MouseMove(down, e2);
      var (x, y) := EventCoordAsWritten(c.gol, e2);
      && (InGrid(c.gol, x, y) ==> Alive(CellOf(moved.gol, x, y)) == (which == LeftButton))
      && (InGrid(c.gol, x, y) ==> forall x2, y2 :: InGrid(c.gol, x2, y2) && (x2, y2) != (x, y) ==>
            CellOf(moved.gol, x2, y2) == CellOf(down.gol, x2, y2))
      && (!InGrid(c.gol, x, y) ==> moved.gol == down.gol)
      && MouseMove(MouseUp(moved), e3) == MouseUp(moved)
  {
    var down := MouseDown(c, which, e1);
    var (x, y) := EventCoordAsWritten(c.gol, e2);
    if InGrid(c.gol, x, y) {
      LifeLaws.SetThenRead(down.gol, x, y, which == LeftButton);
    }
  }

  /** Space twice restores the controller. */
  lemma SpaceTwice(c: Controller, draws: seq<real>)
    requires Valid(c.gol)
    ensures KeyUp(KeyUp(c, KeySpace, draws), KeySpace, draws) == c
  {
    LifeLaws.TimerLaws(c.gol);
  }
}
